=== FILE: README.md ===
# Copy versioned URL — a Dafny model

This project models the "copy versioned URL" button of the Antora UI bundle
(`src/js/08-copy-versioned-url.js`), as its mocha test suite
`test/08-copy-versioned-url-test.js` pins it down. The script file is not
part of this model. Its behaviour is rebuilt from the test's fakes and
assertions:

- Loading the script looks up the button with id `copy-url`. When there is
  no button it stops silently. Otherwise it attaches a click handler.
- A click looks up the metadata element `meta[name="versioned-url"]`. When
  there is none, the click does nothing more.
- Otherwise the click writes the element's `content` to the clipboard. The
  location hash is appended when it is acceptable and dropped when it is not.
  The click then adds the class `copied` to the button and schedules a
  1500 ms timer that removes that class.

Files:

- `wrappers.dfy`: `Option`, for JavaScript's `undefined` and for lookups that find nothing.
- `url.dfy` (module `VersionedUrl`): the pure URL composition, `AcceptableHash` and `FinalUrl`, with one lemma per tested hash.
- `fakes.dfy` (module `Page`): the objects the tests fake, written as classes whose methods update their fields. They are the button and its class list, the timer queue, the clipboard, the metadata element, the document lookups and the window.
- `controller.dfy` (module `CopyVersionedUrl`): running the script (`Setup`), the click handler, the feedback state machine (Idle ⇄ Feedback) and one method per test case.

The allow-list for the hash is `#` followed by one or more ASCII letters,
digits, `_`, `-` or `.`. Every accepted and rejected hash in the test suite
fits it. The script's exact pattern is not visible, so nothing is claimed for
other characters beyond this choice.

A browser's `classList` behaves as a set, but the test's fake button keeps a
*list*: `add` pushes a duplicate and `remove` splices out one occurrence. The
model follows the list. This is why two quick clicks leave `copied` on the
button twice until both timers have run.

## Model

| member | source | states |
|---|---|---|
| VersionedUrl.HashChar | test/08-copy-versioned-url-test.js:134-181 | an allowed hash character is an ASCII letter, digit, `_`, `-` or `.`; in particular never `#`, `<`, `>`, a quote, `&`, `/` or a space |
| VersionedUrl.AcceptableHash | test/08-copy-versioned-url-test.js:134-181 | the allow-list `#[A-Za-z0-9_.-]+`: an acceptable hash has a leading `#`, at least one more character, no further `#`, only allowed characters after the `#`, and no markup character (`<`, `>`, quotes, `&`) |
| VersionedUrl.FinalUrl | test/08-copy-versioned-url-test.js:128-181 | the copied text starts with the base URL and is either the base URL or the base URL followed by the whole hash; it differs from the base URL exactly when the hash is defined and acceptable |
| VersionedUrl.AppendedPartIsSafe | test/08-copy-versioned-url-test.js:175-181 | whatever the hash, the text appended to the base URL is empty or `#` plus allowed characters only, so no `<` reaches the clipboard through the hash |
| VersionedUrl.EmptyHashCopiesBase | test/08-copy-versioned-url-test.js:128-132 | an empty hash or a bare `#` copies the base URL alone, like an undefined hash; this follows from the allow-list `#[A-Za-z0-9_.-]+` and no test covers it |
| VersionedUrl.UndefinedHashCopiesBase | test/08-copy-versioned-url-test.js:128-132 | with the hash undefined the copied text is exactly the base URL |
| VersionedUrl.SimpleHashAppended | test/08-copy-versioned-url-test.js:134-140 | `#welcome` is appended verbatim |
| VersionedUrl.DottedHashAppended | test/08-copy-versioned-url-test.js:142-149 | `#topic.subtopic` is appended verbatim |
| VersionedUrl.HyphenatedHashAppended | test/08-copy-versioned-url-test.js:151-157 | `#topic-subtopic` is appended verbatim |
| VersionedUrl.UnderscoredHashAppended | test/08-copy-versioned-url-test.js:159-165 | `#topic_subtopic` is appended verbatim |
| VersionedUrl.NumberedHashAppended | test/08-copy-versioned-url-test.js:167-173 | `#topic1_subtopic2` is appended verbatim |
| VersionedUrl.MarkupHashDropped | test/08-copy-versioned-url-test.js:175-181 | `#topic<script` is discarded whole and the copied text is exactly the base URL |
| Page.IndexOf | test/08-copy-versioned-url-test.js:38 | `indexOf` returns -1 exactly when the class is absent, and otherwise the index of its first occurrence |
| Page.RemoveFirst | test/08-copy-versioned-url-test.js:37-42 | removing a class shortens the list by one when the class is present and keeps its length otherwise |
| Page.RemoveAbsent | test/08-copy-versioned-url-test.js:39-41 | removing an absent class leaves the list unchanged, so removal is idempotent |
| Page.RemoveOneOccurrence | test/08-copy-versioned-url-test.js:37-42 | removal takes away exactly one occurrence of the class, as multisets |
| Page.RemoveIsSplice | test/08-copy-versioned-url-test.js:38-41 | removal is `splice(index, 1)` at the first occurrence that `indexOf` finds |
| Page.Button.constructor | test/08-copy-versioned-url-test.js:23-27 | a new button has no classes, no recorded id and no handler attached |
| Page.Button.AddEventListener | test/08-copy-versioned-url-test.js:28-32 | after `addEventListener` a click runs the handler; classes and id are unchanged |
| Page.Button.Add | test/08-copy-versioned-url-test.js:34-36 | `classList.add` appends the class to the end of the list |
| Page.Button.Remove | test/08-copy-versioned-url-test.js:37-42 | `classList.remove` leaves the list equal to `RemoveFirst` of the old list; it is proved through `IndexOf` and the splice |
| Page.Fired | test/08-copy-versioned-url-test.js:50-55 | running removal callbacks never lengthens a button's class list |
| Page.Timeout.constructor | test/08-copy-versioned-url-test.js:45-46 | a new timer facility has no queued requests |
| Page.Timeout.SetTimeout | test/08-copy-versioned-url-test.js:47-49 | `setTimeout` appends `(callback, time)` to the queue |
| Page.Timeout.Run | test/08-copy-versioned-url-test.js:50-55 | `run` invokes every queued callback once, in order, on the button it targets, and then empties the queue; the targeted buttons keep their id and their handler |
| Page.TargetsOnly | test/08-copy-versioned-url-test.js:50-55 | when every queued callback acts on one button, running the queue touches no other button |
| Page.Clipboard.constructor | test/08-copy-versioned-url-test.js:57-58 | the clipboard starts empty |
| Page.Clipboard.WriteText | test/08-copy-versioned-url-test.js:59-61 | `writeText` replaces the clipboard's content with the text |
| Page.Meta.constructor | test/08-copy-versioned-url-test.js:63-65 | the metadata element holds the base URL and has not been looked up yet |
| Page.Document.constructor | test/08-copy-versioned-url-test.js:66-75 | the document's lookups return the given button and metadata element, or nothing |
| Page.Document.GetElementById | test/08-copy-versioned-url-test.js:67-70 | `getElementById` returns the button, if any, and records on it the id asked for |
| Page.Document.QuerySelector | test/08-copy-versioned-url-test.js:71-74 | `querySelector` returns the metadata element, if any, and records on it the selector asked for |
| Page.Window.constructor | test/08-copy-versioned-url-test.js:76-83 | the window holds the location hash, possibly undefined, and the clipboard |
| CopyVersionedUrl.Setup | test/08-copy-versioned-url-test.js:95-104 | running the script attaches a handler exactly when the lookup by id `copy-url` finds a button; without a button nothing changes |
| CopyVersionedUrl.OnClick | test/08-copy-versioned-url-test.js:106-126 | without the metadata element, classes, clipboard and timers are unchanged. With it, the lookup used `meta[name="versioned-url"]`, the clipboard holds `FinalUrl` of its content and the hash, `copied` is appended to the classes and one removal with delay 1500 is queued |
| CopyVersionedUrl.Click | test/08-copy-versioned-url-test.js:25-31 | before a handler is attached a click changes nothing, not even the metadata element (its frame is empty there); afterwards it has exactly the handler's effect |
| CopyVersionedUrl.Feedback | test/08-copy-versioned-url-test.js:118-126 | the state kept between clicks and timers: every class on the button is `copied`, every pending request removes `copied` from that button after 1500, and there are as many markers as pending removals (an empty list and queue is Idle) |
| CopyVersionedUrl.MarkedIffPending | test/08-copy-versioned-url-test.js:118-126 | in the feedback state the button carries `copied` exactly when a removal is still pending |
| CopyVersionedUrl.ClickKeepsFeedback | test/08-copy-versioned-url-test.js:118-126 | a successful click moves the feedback state to one more marker and one more pending removal |
| CopyVersionedUrl.FiringRemovesMarkers | test/08-copy-versioned-url-test.js:37-55 | on a list of markers, each fired removal takes off one marker; removals after the list is empty change nothing |
| CopyVersionedUrl.RunEndsFeedback | test/08-copy-versioned-url-test.js:118-126 | running all pending removals from the feedback state empties the class list (back to Idle) |
| CopyVersionedUrl.NewPage | test/08-copy-versioned-url-test.js:21-87 | the page as the suite builds it: an empty button, the metadata element holding the base URL (or none), the hash, an empty clipboard and an empty timer queue |
| CopyVersionedUrl.ButtonUndefined | test/08-copy-versioned-url-test.js:95-99 | without a button no handler is attached, and a click leaves classes, clipboard and timers empty |
| CopyVersionedUrl.ButtonLookedUpById | test/08-copy-versioned-url-test.js:101-104 | the button is looked up by the id `copy-url` |
| CopyVersionedUrl.MetaLookedUpBySelector | test/08-copy-versioned-url-test.js:106-110 | a click looks up the metadata element with the selector `meta[name="versioned-url"]` |
| CopyVersionedUrl.MetaUndefined | test/08-copy-versioned-url-test.js:112-116 | a click without the metadata element leaves classes, clipboard and timers empty |
| CopyVersionedUrl.FeedbackCycle | test/08-copy-versioned-url-test.js:118-126 | classes are `[]` before a click and `['copied']` after it; exactly one timer is queued, with delay 1500; after the timers run the classes are `[]` again |
| CopyVersionedUrl.OverlappingClicks | test/08-copy-versioned-url-test.js:47-55 | two clicks queue two removals and mark the button twice; running them leaves no marker, because each removal takes off one of the two markers |
| CopyVersionedUrl.ClickThenRun | test/08-copy-versioned-url-test.js:118-126 | from Idle with the handler attached, a click marks the button `['copied']` with one delay of 1500 and copies `FinalUrl`; running the timers returns to Idle with the handler still attached |
| CopyVersionedUrl.RepeatedCycle | test/08-copy-versioned-url-test.js:118-126 | click, run the timers, click and run again: the classes go `['copied']`, `[]`, `['copied']`, `[]`, so the feedback cycle repeats |
| CopyVersionedUrl.ClickRepeatedly | test/08-copy-versioned-url-test.js:118-126 | after any number n of clicks, the page stays in the feedback state: n markers, n pending removals, and the marker is present exactly when n > 0. Running the timers then empties the class list |
| CopyVersionedUrl.CopiedOnClick | test/08-copy-versioned-url-test.js:128-181 | one click copies exactly `FinalUrl` of the base URL and the hash; an undefined hash copies the base URL |

## Left out

- The script file `src/js/08-copy-versioned-url.js` is not part of this model. Its behaviour is rebuilt from its tests. The exact hash pattern is a chosen allow-list, described above.
- Module loading and cache busting through `require.cache`, and the installing and removing of globals. This is test plumbing.
- The placeholder `click` that logs `hi` before a handler is attached. It is modelled as a click with no effect, because console output is not modelled.
- The event name passed to `addEventListener`. The fake ignores it, and the model records only that a handler is attached.
- Clipboard asynchrony and the outcome of `writeText`. The clipboard is a string field that the write replaces.
- Wall-clock timer semantics. Timers are a FIFO queue of `(callback, delay)` requests that fire only when `run` is called. The delay is recorded and takes no part in any arithmetic.
- Callbacks other than class removal. The controller schedules no others, so a callback is a datatype naming the target button and the class.

=== FILE: controller.dfy ===
/** The controller behind the "copy versioned URL" button: loading the script
    attaches a click handler to the button with id "copy-url"; a click copies
    the versioned URL (plus an acceptable location hash) to the clipboard,
    marks the button "copied" and schedules the marker's removal after 1500. */
module CopyVersionedUrl {
  import opened Wrappers
  import opened VersionedUrl
  import opened Page

  const ButtonId := "copy-url"
  const MetaSelector := "meta[name=\"versioned-url\"]"
  const CopiedClass := "copied"
  const FeedbackDelay := 1500

  /** The removal request scheduled by one click on `b`. */
  function Unmark(b: Button): Invocation {
    Invocation(RemoveClass(b, CopiedClass), FeedbackDelay)
  }

  /** Running the script: look the button up and attach the click handler.
      Without a button nothing else happens and nothing is attached. */
  method Setup(document: Document) returns (attached: bool)
    modifies if document.button == null then {} else {document.button}
    ensures attached <==> document.button != null
    ensures document.button != null ==>
      document.button.listening && document.button.id == Some(ButtonId) &&
      document.button.classes == old(document.button.classes)
  {
    var button := document.GetElementById(ButtonId);
    if button == null {
      return false;
    }
    button.AddEventListener();
    attached := true;
  }

  /** The click handler. Without the metadata element it does nothing more
      than the lookup; otherwise it writes the final URL to the clipboard,
      adds the marker class and queues the marker's removal. */
  method OnClick(button: Button, document: Document, window: Window, timeout: Timeout)
    modifies button, window.clipboard, timeout
    modifies if document.meta == null then {} else {document.meta}
    ensures button.id == old(button.id) && button.listening == old(button.listening)
    ensures document.meta == null ==>
      button.classes == old(button.classes) &&
      window.clipboard.content == old(window.clipboard.content) &&
      timeout.invocations == old(timeout.invocations)
    ensures document.meta != null ==>
      document.meta.expression == Some(MetaSelector) &&
      document.meta.content == old(document.meta.content) &&
      window.clipboard.content == FinalUrl(document.meta.content, window.hash) &&
      button.classes == old(button.classes) + [CopiedClass] &&
      timeout.invocations == old(timeout.invocations) + [Unmark(button)]
  {
    var meta := document.QuerySelector(MetaSelector);
    if meta == null {
      return;
    }
    var url := FinalUrl(meta.content, window.hash);
    window.clipboard.WriteText(url);
    button.Add(CopiedClass);
    timeout.SetTimeout(RemoveClass(button, CopiedClass), FeedbackDelay);
  }

  /** `button.click()`: the handler runs once it is attached; before that the
      click changes nothing. */
  method Click(button: Button, document: Document, window: Window, timeout: Timeout)
    modifies button, window.clipboard, timeout
    modifies if !button.listening || document.meta == null then {} else {document.meta}
    ensures button.id == old(button.id) && button.listening == old(button.listening)
    ensures !button.listening || document.meta == null ==>
      button.classes == old(button.classes) &&
      window.clipboard.content == old(window.clipboard.content) &&
      timeout.invocations == old(timeout.invocations)
    ensures button.listening && document.meta != null ==>
      document.meta.expression == Some(MetaSelector) &&
      document.meta.content == old(document.meta.content) &&
      window.clipboard.content == FinalUrl(document.meta.content, window.hash) &&
      button.classes == old(button.classes) + [CopiedClass] &&
      timeout.invocations == old(timeout.invocations) + [Unmark(button)]
  {
    if button.listening {
      OnClick(button, document, window, timeout);
    }
  }

  /** The feedback state of a button `b` whose list of classes is `classes`
      while `pending` is queued: every class is the marker, and each marker is
      matched by exactly one pending removal of the marker from `b`. */
  function Feedback(classes: seq<string>, pending: seq<Invocation>, b: Button): (ok: bool)
    ensures ok ==> forall c :: c in classes ==> c == "copied"
    ensures ok ==> forall inv :: inv in pending ==> inv.callback == RemoveClass(b, "copied") && inv.time == 1500
    ensures ok ==> |classes| == |pending|
  {
    |classes| == |pending| &&
    (forall i :: 0 <= i < |classes| ==> classes[i] == CopiedClass) &&
    (forall i :: 0 <= i < |pending| ==> pending[i] == Unmark(b))
  }

  /** In the feedback state the button carries the marker exactly when a
      removal is still pending: Idle and Feedback are told apart by the
      class alone. */
  lemma MarkedIffPending(classes: seq<string>, pending: seq<Invocation>, b: Button)
    requires Feedback(classes, pending, b)
    ensures CopiedClass in classes <==> |pending| > 0
  {
    if |pending| > 0 {
      assert classes[0] == CopiedClass;
    }
  }

  /** A successful click keeps the feedback state: one more marker, one more
      pending removal. */
  lemma ClickKeepsFeedback(classes: seq<string>, pending: seq<Invocation>, b: Button)
    requires Feedback(classes, pending, b)
    ensures Feedback(classes + [CopiedClass], pending + [Unmark(b)], b)
  {
  }

  /** Firing removals of `cls` from `b`, on a list made only of `cls`, takes
      one element off per removal and leaves the list alone once it is empty. */
  lemma {:induction false} FiringRemovesMarkers(classes: seq<string>, fired: seq<Invocation>, b: Button, cls: string)
    requires forall i :: 0 <= i < |classes| ==> classes[i] == cls
    requires forall i :: 0 <= i < |fired| ==> fired[i].callback == RemoveClass(b, cls)
    ensures Fired(classes, fired, b) == classes[if |fired| < |classes| then |fired| else |classes|..]
  {
    if fired != [] {
      var earlier := fired[..|fired| - 1];
      FiringRemovesMarkers(classes, earlier, b, cls);
      var k := if |earlier| < |classes| then |earlier| else |classes|;
      if k < |classes| {
        assert classes[k..][0] == cls;
        assert classes[k..][1..] == classes[k + 1..];
      }
    }
  }

  /** Running every pending removal from the feedback state empties the class
      list, which is the Idle state again. */
  lemma RunEndsFeedback(classes: seq<string>, pending: seq<Invocation>, b: Button)
    requires Feedback(classes, pending, b)
    ensures Fired(classes, pending, b) == []
    ensures Feedback(Fired(classes, pending, b), [], b)
  {
    FiringRemovesMarkers(classes, pending, b, CopiedClass);
  }

  /** The page of the test suite: a button (or none), the metadata element
      holding `base` (or none), a location hash and an empty clipboard and
      timer queue. */
  method NewPage(buttonPresent: bool, metaPresent: bool, base: string, hash: Option<string>)
    returns (button: Button, document: Document, window: Window, timeout: Timeout)
    ensures fresh(button) && fresh(document) && fresh(window) && fresh(window.clipboard) && fresh(timeout)
    ensures button.classes == [] && !button.listening && button.id == None
    ensures document.button == (if buttonPresent then button else null)
    ensures metaPresent <==> document.meta != null
    ensures document.meta != null ==>
      fresh(document.meta) && document.meta.content == base && document.meta.expression == None
    ensures window.hash == hash && window.clipboard.content == "" && timeout.invocations == []
  {
    button := new Button();
    var meta := new Meta(base);
    document := new Document(if buttonPresent then button else null, if metaPresent then meta else null);
    var clipboard := new Clipboard();
    window := new Window(hash, clipboard);
    timeout := new Timeout();
  }

  /** Test "button undefined": setup is skipped, so a click changes nothing. */
  method ButtonUndefined(base: string, hash: Option<string>)
    returns (attached: bool, classes: seq<string>, copied: string, pending: seq<Invocation>)
    ensures !attached && classes == [] && copied == "" && pending == []
  {
    var button, document, window, timeout := NewPage(false, true, base, hash);
    attached := Setup(document);
    Click(button, document, window, timeout);
    classes, copied, pending := button.classes, window.clipboard.content, timeout.invocations;
  }

  /** Test "button id is copy-url". */
  method ButtonLookedUpById(base: string, hash: Option<string>) returns (id: Option<string>)
    ensures id == Some("copy-url")
  {
    var button, document, window, timeout := NewPage(true, true, base, hash);
    var _ := Setup(document);
    id := button.id;
  }

  /** Test "meta expression is meta[name="versioned-url"]". */
  method MetaLookedUpBySelector(base: string, hash: Option<string>) returns (expression: Option<string>)
    ensures expression == Some("meta[name=\"versioned-url\"]")
  {
    var button, document, window, timeout := NewPage(true, true, base, hash);
    var _ := Setup(document);
    Click(button, document, window, timeout);
    expression := document.meta.expression;
  }

  /** Test "versioned-url expression undefined": the click completes and
      leaves classes, clipboard and timers as they were. */
  method MetaUndefined(base: string, hash: Option<string>)
    returns (classes: seq<string>, copied: string, pending: seq<Invocation>)
    ensures classes == [] && copied == "" && pending == []
  {
    var button, document, window, timeout := NewPage(true, false, base, hash);
    var _ := Setup(document);
    Click(button, document, window, timeout);
    classes, copied, pending := button.classes, window.clipboard.content, timeout.invocations;
  }

  /** Test "click button adds copied class & timeout clears it". */
  method FeedbackCycle(base: string, hash: Option<string>)
    returns (before: seq<string>, during: seq<string>, queued: nat, delay: nat, after: seq<string>)
    ensures before == [] && during == ["copied"] && queued == 1 && delay == 1500 && after == []
  {
    var button, document, window, timeout := NewPage(true, true, base, hash);
    var _ := Setup(document);
    before := button.classes;
    Click(button, document, window, timeout);
    during := button.classes;
    queued, delay := |timeout.invocations|, timeout.invocations[0].time;
    RunEndsFeedback(button.classes, timeout.invocations, button);
    timeout.Run();
    after := button.classes;
  }

  /** Two clicks before the timers fire: the button carries the marker twice
      and both removals are queued; once run, each removal takes off one of
      the two markers, so none is left. */
  method OverlappingClicks(base: string, hash: Option<string>)
    returns (during: seq<string>, queued: nat, after: seq<string>)
    ensures during == ["copied", "copied"] && queued == 2 && after == []
  {
    var button, document, window, timeout := NewPage(true, true, base, hash);
    var _ := Setup(document);
    Click(button, document, window, timeout);
    Click(button, document, window, timeout);
    during, queued := button.classes, |timeout.invocations|;
    RunEndsFeedback(button.classes, timeout.invocations, button);
    timeout.Run();
    after := button.classes;
  }

  /** From Idle with the handler attached: one click marks the button and
      queues one removal of delay 1500; running the timers returns the page to
      Idle with the handler still attached. */
  method ClickThenRun(button: Button, document: Document, window: Window, timeout: Timeout)
    returns (marked: seq<string>, delay: nat)
    requires button.listening && document.meta != null
    requires button.classes == [] && timeout.invocations == []
    modifies button, window.clipboard, timeout, document.meta
    ensures marked == ["copied"] && delay == 1500
    ensures button.classes == [] && timeout.invocations == []
    ensures button.listening && button.id == old(button.id)
    ensures document.meta.expression == Some(MetaSelector)
    ensures document.meta.content == old(document.meta.content)
    ensures window.clipboard.content == FinalUrl(document.meta.content, window.hash)
  {
    Click(button, document, window, timeout);
    assert button.classes == [CopiedClass] && timeout.invocations == [Unmark(button)];
    marked, delay := button.classes, timeout.invocations[0].time;
    RunEndsFeedback(button.classes, timeout.invocations, button);
    TargetsOnly(timeout.invocations, button);
    timeout.Run();
  }

  /** Clicking, running the timers, and then doing both once more: the cycle
      repeats, because running the timers keeps the handler attached. */
  method RepeatedCycle(base: string, hash: Option<string>)
    returns (first: seq<string>, cleared: seq<string>, second: seq<string>, clearedAgain: seq<string>)
    ensures first == ["copied"] && cleared == [] && second == ["copied"] && clearedAgain == []
  {
    var button, document, window, timeout := NewPage(true, true, base, hash);
    var _ := Setup(document);
    var delay;
    first, delay := ClickThenRun(button, document, window, timeout);
    cleared := button.classes;
    second, delay := ClickThenRun(button, document, window, timeout);
    clearedAgain := button.classes;
  }

  /** `n` clicks before any timer fires: the page stays in the feedback state
      throughout, so the button is marked once per click and exactly while
      removals are pending; running the timers brings it back to Idle. */
  method ClickRepeatedly(base: string, hash: Option<string>, n: nat)
    returns (marked: seq<string>, queued: nat, isMarked: bool, after: seq<string>)
    ensures |marked| == n && queued == n
    ensures forall c :: c in marked ==> c == "copied"
    ensures isMarked <==> n > 0
    ensures after == []
  {
    var button, document, window, timeout := NewPage(true, true, base, hash);
    var _ := Setup(document);
    var i := 0;
    while i < n
      invariant 0 <= i <= n
      invariant button.listening && document.meta != null
      invariant fresh(document.meta) && fresh(window.clipboard)
      invariant |timeout.invocations| == i
      invariant Feedback(button.classes, timeout.invocations, button)
    {
      ClickKeepsFeedback(button.classes, timeout.invocations, button);
      Click(button, document, window, timeout);
      i := i + 1;
    }
    marked, queued := button.classes, |timeout.invocations|;
    MarkedIffPending(button.classes, timeout.invocations, button);
    isMarked := CopiedClass in button.classes;
    RunEndsFeedback(button.classes, timeout.invocations, button);
    timeout.Run();
    after := button.classes;
  }

  /** Tests "hash is undefined" … "hash contains invalid": one click copies
      exactly the final URL for the page's base URL and hash. */
  method CopiedOnClick(base: string, hash: Option<string>) returns (copied: string)
    ensures copied == FinalUrl(base, hash)
    ensures hash == None ==> copied == base
  {
    var button, document, window, timeout := NewPage(true, true, base, hash);
    var _ := Setup(document);
    Click(button, document, window, timeout);
    copied := window.clipboard.content;
  }
}

=== FILE: fakes.dfy ===
/** The page the controller runs in, as the test suite builds it: a button
    with a class list, a one-shot timer facility that queues its callbacks, a
    clipboard, the versioned-url metadata element, the document's two lookups
    and the window's location hash. */
module Page {
  import opened Wrappers

  /** `list.indexOf(x)`: the first index of `x`, or -1 when it is absent. */
  method IndexOf(list: seq<string>, x: string) returns (index: int)
    ensures -1 <= index < |list|
    ensures index == -1 <==> x !in list
    ensures 0 <= index ==> list[index] == x && x !in list[..index]
  {
    index := 0;
    while index < |list|
      invariant 0 <= index <= |list|
      invariant x !in list[..index]
    {
      if list[index] == x {
        return;
      }
      index := index + 1;
    }
    assert list[..index] == list;
    index := -1;
  }

  /** The class list after removing one occurrence of `x`: the first one, if
      there is any; otherwise the list is left as it is. */
  function RemoveFirst(list: seq<string>, x: string): (r: seq<string>)
    ensures |r| == if x in list then |list| - 1 else |list|
  {
    if list == [] then []
    else if list[0] == x then list[1..]
    else [list[0]] + RemoveFirst(list[1..], x)
  }

  /** Removing a class that is absent changes nothing, so removal is
      idempotent. */
  lemma {:induction false} RemoveAbsent(list: seq<string>, x: string)
    requires x !in list
    ensures RemoveFirst(list, x) == list
  {
    if list != [] {
      RemoveAbsent(list[1..], x);
    }
  }

  /** Removal takes away exactly one occurrence when there is one. */
  lemma {:induction false} RemoveOneOccurrence(list: seq<string>, x: string)
    ensures multiset(RemoveFirst(list, x)) == multiset(list) - multiset{x}
  {
    if list != [] {
      assert list == [list[0]] + list[1..];
      if list[0] != x {
        RemoveOneOccurrence(list[1..], x);
      }
    }
  }

  /** Removing at the first occurrence is `splice(index, 1)` at the index
      `indexOf` finds. */
  lemma {:induction false} RemoveIsSplice(list: seq<string>, x: string, index: nat)
    requires index < |list| && list[index] == x && x !in list[..index]
    ensures RemoveFirst(list, x) == list[..index] + list[index + 1..]
  {
    if index > 0 {
      assert list[0] in list[..index];
      assert list[1..][..index - 1] == list[1..index];
      RemoveIsSplice(list[1..], x, index - 1);
    }
  }

  /** The button with id "copy-url". `listening` records whether a click
      handler has been attached; `id` is the identifier the document was last
      asked for when it returned this button. */
  class Button {
    var id: Option<string>
    var classes: seq<string>
    var listening: bool

    constructor ()
      ensures id == None && classes == [] && !listening
    {
      id := None;
      classes := [];
      listening := false;
    }

    /** `addEventListener`: from now on a click runs the controller's handler. */
    method AddEventListener()
      modifies this
      ensures listening
      ensures id == old(id) && classes == old(classes)
    {
      listening := true;
    }

    /** `classList.add`: the class is pushed onto the list. */
    method Add(cls: string)
      modifies this
      ensures classes == old(classes) + [cls]
      ensures id == old(id) && listening == old(listening)
    {
      classes := classes + [cls];
    }

    /** `classList.remove`: one occurrence is spliced out when present. */
    method Remove(cls: string)
      modifies this
      ensures classes == RemoveFirst(old(classes), cls)
      ensures id == old(id) && listening == old(listening)
    {
      var index := IndexOf(classes, cls);
      if index > -1 {
        RemoveIsSplice(classes, cls, index);
        classes := classes[..index] + classes[index + 1..];
      } else {
        RemoveAbsent(classes, cls);
      }
    }
  }

  /** The only callback the controller ever schedules: remove a class from a
      button. */
  datatype Callback = RemoveClass(target: Button, cls: string)

  /** One `setTimeout` request: the callback and its delay. */
  datatype Invocation = Invocation(callback: Callback, time: nat)

  /** The buttons that the queued callbacks touch. */
  function Targets(pending: seq<Invocation>): (targets: set<Button>)
    ensures forall i :: 0 <= i < |pending| ==> pending[i].callback.target in targets
  {
    set inv | inv in pending :: inv.callback.target
  }

  /** A queue whose callbacks all act on `b` touches no other button. */
  lemma TargetsOnly(pending: seq<Invocation>, b: Button)
    requires forall i :: 0 <= i < |pending| ==> pending[i].callback.target == b
    ensures Targets(pending) <= {b}
  {
  }

  /** The class list of `b` after the callbacks of `fired` have run in order
      on a button whose list was `classes`. */
  function Fired(classes: seq<string>, fired: seq<Invocation>, b: Button): (r: seq<string>)
    ensures |r| <= |classes|
  {
    if fired == [] then classes
    else
      var before := Fired(classes, fired[..|fired| - 1], b);
      var last := fired[|fired| - 1].callback;
      if last.target == b then RemoveFirst(before, last.cls) else before
  }

  /** The timer facility: requests are queued, and `Run` fires them all. */
  class Timeout {
    var invocations: seq<Invocation>

    constructor ()
      ensures invocations == []
    {
      invocations := [];
    }

    /** `setTimeout(callback, time)`: the request is queued. */
    method SetTimeout(callback: Callback, time: nat)
      modifies this
      ensures invocations == old(invocations) + [Invocation(callback, time)]
    {
      invocations := invocations + [Invocation(callback, time)];
    }

    /** `run`: every queued callback is invoked once, in order, and the queue
        is emptied. */
    method Run()
      modifies this, Targets(invocations)
      ensures invocations == []
      ensures forall b :: b in old(Targets(invocations)) ==>
        b.classes == Fired(old(b.classes), old(invocations), b)
      ensures forall b :: b in old(Targets(invocations)) ==>
        b.id == old(b.id) && b.listening == old(b.listening)
    {
      var pending := invocations;
      var i := 0;
      while i < |pending|
        invariant 0 <= i <= |pending|
        invariant forall b :: b in Targets(pending) ==>
          b.classes == Fired(old(b.classes), pending[..i], b)
        invariant forall b :: b in Targets(pending) ==>
          b.id == old(b.id) && b.listening == old(b.listening)
      {
        var callback := pending[i].callback;
        assert pending[..i + 1][..i] == pending[..i];
        callback.target.Remove(callback.cls);
        i := i + 1;
      }
      assert pending[..i] == pending;
      invocations := [];
    }
  }

  /** `window.navigator.clipboard`. */
  class Clipboard {
    var content: string

    constructor ()
      ensures content == ""
    {
      content := "";
    }

    /** `writeText`: the text replaces the clipboard's content. */
    method WriteText(text: string)
      modifies this
      ensures content == text
    {
      content := text;
    }
  }

  /** The metadata element whose `content` is the versioned base URL;
      `expression` is the selector it was last looked up with. */
  class Meta {
    var content: string
    var expression: Option<string>

    constructor (content: string)
      ensures this.content == content && expression == None
    {
      this.content := content;
      expression := None;
    }
  }

  /** The document's lookups: `button` and `meta` are what
      `getElementById` and `querySelector` return (null for nothing). */
  class Document {
    var button: Button?
    var meta: Meta?

    constructor (button: Button?, meta: Meta?)
      ensures this.button == button && this.meta == meta
    {
      this.button := button;
      this.meta := meta;
    }

    /** `getElementById`: returns the button, recording the id it was asked for. */
    method GetElementById(id: string) returns (found: Button?)
      modifies if button == null then {} else {button}
      ensures found == button
      ensures found != null ==>
        found.id == Some(id) && found.classes == old(found.classes) && found.listening == old(found.listening)
    {
      found := button;
      if found != null {
        found.id := Some(id);
      }
    }

    /** `querySelector`: returns the metadata element, recording the selector
        it was asked for. */
    method QuerySelector(expression: string) returns (found: Meta?)
      modifies if meta == null then {} else {meta}
      ensures found == meta
      ensures found != null ==>
        found.expression == Some(expression) && found.content == old(found.content)
    {
      found := meta;
      if found != null {
        found.expression := Some(expression);
      }
    }
  }

  /** The window: `location.hash` (None for undefined) and
      `navigator.clipboard`. */
  class Window {
    var hash: Option<string>
    var clipboard: Clipboard

    constructor (hash: Option<string>, clipboard: Clipboard)
      ensures this.hash == hash && this.clipboard == clipboard
    {
      this.hash := hash;
      this.clipboard := clipboard;
    }
  }
}

=== FILE: url.dfy ===
/** The pure part of the "copy versioned URL" button: which string is written
    to the clipboard, given the page's versioned base URL and the current
    location hash. */
module VersionedUrl {
  import opened Wrappers

  /** A character allowed in a copied hash fragment after its leading '#':
      ASCII letters, ASCII digits, '_', '-' and '.'. */
  function HashChar(c: char): (ok: bool)
    ensures ok ==> c != '#' && c != '<' && c != '>' && c != '"' && c != '\'' && c != '&' && c != '/' && c != ' '
  {
    ('a' <= c <= 'z') || ('A' <= c <= 'Z') || ('0' <= c <= '9') || c == '_' || c == '-' || c == '.'
  }

  /** A hash fragment that may be appended verbatim: '#' followed by one or
      more allowed characters. */
  function AcceptableHash(h: string): (ok: bool)
    ensures ok ==> |h| >= 2 && h[0] == '#' && '#' !in h[1..]
    ensures ok ==> forall c :: c in h[1..] ==> HashChar(c)
    ensures ok ==> '<' !in h && '>' !in h && '"' !in h && '\'' !in h && '&' !in h
  {
    |h| >= 2 && h[0] == '#' && forall i :: 1 <= i < |h| ==> HashChar(h[i])
  }

  /** The text copied to the clipboard. With no hash (or an empty one) it is the
      base URL; an acceptable hash is appended verbatim; any other hash is
      dropped as a whole, with neither escaping nor a partial keep. */
  function FinalUrl(base: string, hash: Option<string>): (url: string)
    ensures |base| <= |url| && url[..|base|] == base
    ensures url == base || (hash.Some? && url == base + hash.value)
    ensures url != base <==> hash.Some? && AcceptableHash(hash.value)
  {
    match hash
    case None => base
    case Some(h) => if AcceptableHash(h) then base + h else base
  }

  /** Whatever the hash holds, the part appended to the base URL is either
      nothing or '#' followed only by allowed characters: no markup character
      such as '<' can reach the clipboard through the hash. */
  lemma AppendedPartIsSafe(base: string, hash: Option<string>)
    ensures var tail := FinalUrl(base, hash)[|base|..];
      tail == [] || (tail[0] == '#' && forall i :: 1 <= i < |tail| ==> HashChar(tail[i]))
    ensures '<' !in FinalUrl(base, hash)[|base|..]
  {
  }

  /** An empty hash, or a bare '#', never changes the copied URL. */
  lemma EmptyHashCopiesBase(base: string)
    ensures FinalUrl(base, Some("")) == base
    ensures FinalUrl(base, Some("#")) == base
  {
  }

  /** Test "hash is undefined". */
  lemma UndefinedHashCopiesBase(base: string)
    ensures FinalUrl(base, None) == base
  {
  }

  /** Test "hash is simple". */
  lemma SimpleHashAppended(base: string)
    ensures FinalUrl(base, Some("#welcome")) == base + "#welcome"
  {
  }

  /** Test "hash contains .". */
  lemma DottedHashAppended(base: string)
    ensures FinalUrl(base, Some("#topic.subtopic")) == base + "#topic.subtopic"
  {
  }

  /** Test "hash contains -". */
  lemma HyphenatedHashAppended(base: string)
    ensures FinalUrl(base, Some("#topic-subtopic")) == base + "#topic-subtopic"
  {
  }

  /** Test "hash contains _". */
  lemma UnderscoredHashAppended(base: string)
    ensures FinalUrl(base, Some("#topic_subtopic")) == base + "#topic_subtopic"
  {
  }

  /** Test "hash contains number". */
  lemma NumberedHashAppended(base: string)
    ensures FinalUrl(base, Some("#topic1_subtopic2")) == base + "#topic1_subtopic2"
  {
  }

  /** Test "hash contains invalid": the whole hash is discarded. */
  lemma MarkupHashDropped(base: string)
    ensures FinalUrl(base, Some("#topic<script")) == base
  {
    assert !HashChar("#topic<script"[6]);
  }
}

=== FILE: wrappers.dfy ===
/** Optional values: a JavaScript value that may be `undefined`, or a lookup
    that may return nothing. */
module Wrappers {

  datatype Option<+T> = None | Some(value: T)
}
